=== FILE: README.md ===
# Finance tracker store and derived views, in Dafny

A model of the logic inside a small personal-finance web app: the in-memory
transaction and savings-goal collections the app keeps, the four mutations
its screens can request, the figures the dashboard derives from them, the
rules of the two entry forms, and the pure part of the request that asks a
text-generation model for advice.

Modules, one per source file:

- `Types` (types.ts): the income/expense type with its string values, the
  preset categories, and the `Transaction` and `Goal` records. Amounts are
  whole rupees (`int`). Dates and deadlines are millisecond timestamps (`int`).
- `Store` (App.tsx): `AddTransaction` (prepend), `DeleteTransaction`
  (filter by id), `AddGoal` (append), `UpdateGoalAmount` (clamped
  contribution), the seed data, the start-up choice between stored and
  seed data, and the application state as a whole under a sequence of
  mutations.
- `Dashboard` (components/Dashboard.tsx): per-type totals, the balance, the
  per-category expense breakdown as a map, the top-three goals, the progress
  bar width and the rounded percentage label.
- `TransactionsScreen` (components/Transactions.tsx): JavaScript `trim`,
  the "Other + custom label" category rule, the entry form and its
  submission, and the newest-first display order.
- `GoalsScreen` (components/Goals.tsx): goal creation from the form, the
  percentage label, and the two fixed contribution buttons.
- `Advice` (services/geminiService.ts): the missing-key short cut, the
  snapshot sent with the question, and the choice between the model's reply
  and the fixed fallback texts.

Values the app takes from the outside world are parameters. These are ids
(the app uses the clock), the current time, the number `parseFloat` produced,
the value `Math.random` returned, the rendering of numbers as text, and the
outcome of the model call (`Reply(text)`, `NoText` or `Failed`).

## Model

| member | source | states |
|---|---|---|
| Types.TypeFromValue | types.ts:1-4 | Only the strings "income" and "expense" are read as a transaction type, and each is read as the type whose value it is |
| Types.TypeValueRoundTrip | types.ts:1-4 | Each type's string value reads back as that type, and two types share a value only if they are the same type |
| Types.CategoryLabels | types.ts:6-16 | Every preset label is non-empty and starts with a capital letter, and only the Other preset has the label "Other" |
| Types.WithId | App.tsx:44 | The stored record carries the given id, and all its other fields are the draft's |
| Types.DraftWithIdRoundTrip | types.ts:18-25 | A transaction is exactly its id plus its other fields |
| Types.GoalWithId | App.tsx:53 | The stored goal carries the given id, and all its other fields are the draft's |
| Store.AddTransaction | App.tsx:43-46 | The list grows by one, the new record with its id is first, and the old records follow unchanged and in order |
| Store.DeleteTransaction | App.tsx:48-50 | The result holds exactly the records whose id differs and is no longer than the input |
| Store.DeleteAppend | App.tsx:48-50 | Deleting distributes over concatenation, so survivors keep their relative order |
| Store.DeleteSingle | App.tsx:49 | A single record is kept exactly when its id differs |
| Store.DeleteLength | App.tsx:48-50 | Deleting keeps the length exactly when no record has the id, and an id no record has changes nothing |
| Store.DeleteIdempotent | App.tsx:48-50 | Deleting the same id twice gives the same list as deleting it once |
| Store.DeleteAfterAdd | App.tsx:43-50 | Adding then deleting an id removes the new record and every older record sharing that id |
| Store.AddTransactionTotals | App.tsx:43-46 | Adding a record raises the total of its own type by its amount and leaves the other total unchanged |
| Store.FirstExpense | App.tsx:43-46 | Recording a 150 expense in an empty store gives an expense total of 150 and a balance of -150 |
| Store.AddGoal | App.tsx:52-55 | The new goal with its id is last, the earlier goals are unchanged, and the caller's saved amount is kept |
| Store.ClampedAmount | App.tsx:61 | With a non-negative target the new amount is within [0, target]: it is current+delta when that is in range, 0 below, and the target above; a negative target yields the target |
| Store.ContributeTo | App.tsx:58-64 | A goal with the id changes only its saved amount, to the clamped value; any other goal is returned as is |
| Store.UpdateGoalAmount | App.tsx:57-66 | Length and order are kept, and goals with another id are unchanged; every goal with the id keeps all fields but the saved amount, which is clamped |
| Store.UpdateUnknownGoal | App.tsx:58-65 | An id no goal has leaves the goals unchanged |
| Store.UpdateKeepsWithinTarget | App.tsx:61 | With non-negative targets, a contribution of any sign leaves every goal within [0, target] |
| Store.SeedTransactions | App.tsx:11-16 | The seed holds four records with distinct ids and positive amounts, all dated before start-up |
| Store.SeedGoals | App.tsx:18-21 | The seed holds two goals with distinct ids, each saved amount within its target and each deadline after start-up |
| Store.SeedFacts | App.tsx:11-21 | The seed has four transactions totalling 2500 income and 1800 expense, and two goals each within its target |
| Store.Startup | App.tsx:25-32 | Start-up uses the stored collection when present, else the seed |
| Store.Apply | App.tsx:43-66 | Transaction mutations leave the goals alone, and goal mutations leave the transactions alone |
| Store.ActionsKeepWithinTarget | App.tsx:52-66 | From goals within target, any sequence of mutations whose added goals start at 0 with a non-negative target keeps every goal within target |
| Dashboard.OfType | components/Dashboard.tsx:20 | The filter keeps the records of the given type and no others |
| Dashboard.OfTypeAppend | components/Dashboard.tsx:20 | Filtering distributes over concatenation; with OfTypeSingle this keeps every copy of a matching record, in store order |
| Dashboard.OfTypeSingle | components/Dashboard.tsx:20 | A single record is kept exactly when it has the type |
| Dashboard.Reduce | components/Dashboard.tsx:21 | The left-fold reduce equals the start value plus the sum of the amounts |
| Dashboard.CalculateTotal | components/Dashboard.tsx:18-22 | The total is the sum of the amounts of the records of that type, and 0 when no record has the type, including for an empty list |
| Dashboard.TotalCons | components/Dashboard.tsx:18-22 | The total of a list is the first record's amount (if it has the type) plus the total of the rest |
| Dashboard.TotalsPartition | components/Dashboard.tsx:18-25 | Income total plus expense total equals the sum of all amounts |
| Dashboard.TotalsDifference | components/Dashboard.tsx:24-26 | Income total less expense total is the sum of all amounts with income counted positive and expense negative |
| Dashboard.Balance | components/Dashboard.tsx:26 | The balance is income total less expense total, which is the signed sum of all records |
| Dashboard.Bump | components/Dashboard.tsx:37 | One step makes the record's category a key, raises its value (zero when absent) by the amount, and leaves every other entry as it was |
| Dashboard.Tally | components/Dashboard.tsx:36-38 | After the loop the keys are the keys before plus the categories of the tallied records |
| Dashboard.TallyContents | components/Dashboard.tsx:36-38 | After the per-record loop a category is a key exactly when it was one before or a tallied record has it; its value is the old value plus those records' amounts |
| Dashboard.CategoryData | components/Dashboard.tsx:33-40 | A category is a key exactly when some expense record has it, and its value is the summed expense amount of that category; income never contributes |
| Dashboard.TallySum | components/Dashboard.tsx:36-38 | The loop adds the sum of the tallied amounts to the sum of the map's values |
| Dashboard.CategoryDataSumsToExpense | components/Dashboard.tsx:25-40 | The category values add up to the expense total |
| Dashboard.TopGoals | components/Dashboard.tsx:90 | The strip shows the first min(3, n) goals in store order |
| Dashboard.ProgressPercent | components/Dashboard.tsx:105 | For a positive target the width is at most 100, non-negative for a non-negative amount, exactly 100 when the target is reached, and the plain ratio below it |
| Dashboard.JsRound | components/Dashboard.tsx:95 | Math.round gives the integer within half of x, taking halves upward |
| Dashboard.DashboardPercentLabel | components/Dashboard.tsx:95 | The unclamped card label is non-negative for a non-negative amount, at most 100 up to the target, and at least 100 beyond it |
| TransactionsScreen.TrimStart | components/Transactions.tsx:24-25 | Removes exactly the leading whitespace |
| TransactionsScreen.TrimEnd | components/Transactions.tsx:24-25 | Removes exactly the trailing whitespace |
| TransactionsScreen.Trim | components/Transactions.tsx:24-25 | The result is no longer than the input and neither starts nor ends with whitespace |
| TransactionsScreen.TrimIsSlice | components/Transactions.tsx:24-25 | The result is the slice of the input between a whitespace-only prefix and a whitespace-only suffix |
| TransactionsScreen.TrimEmpty | components/Transactions.tsx:24 | A string trims to empty exactly when it is all whitespace |
| TransactionsScreen.TrimIdempotent | components/Transactions.tsx:25 | Trimming twice equals trimming once |
| TransactionsScreen.FinalCategory | components/Transactions.tsx:24-26 | The custom text is ignored unless "Other" is selected; with "Other" the result is the trimmed custom text, or "Other" when that text is blank |
| TransactionsScreen.LabelNotBlank | types.ts:6-16 | Every preset label starts with a non-whitespace character |
| TransactionsScreen.SelectableNotBlank | components/Transactions.tsx:46-52 | Every category the form can hold (a displayed preset or "Other") starts with a non-whitespace character |
| TransactionsScreen.FinalCategoryNonEmpty | components/Transactions.tsx:24-26 | For a category the form can hold, the final category is never empty and does not start with whitespace |
| TransactionsScreen.Step | components/Transactions.tsx:150-165 | The category buttons keep the form's category among the displayed presets and "Other" |
| TransactionsScreen.StepsKeepSelectable | components/Transactions.tsx:150-165 | After any sequence of form events the category is still a displayed preset or "Other" |
| TransactionsScreen.InitialFormSelectable | components/Transactions.tsx:17 | The form starts on Food, a displayed preset, so on a selectable category |
| TransactionsScreen.HandleSubmit | components/Transactions.tsx:20-42 | An empty amount changes nothing; otherwise the record with the final category goes first, the store follows, and the form is cleared to Food and closed, keeping the chosen type |
| TransactionsScreen.SubmittedCategoryNonEmpty | components/Transactions.tsx:24-41 | A saved record never has an empty category, and the reset form again holds a selectable category |
| TransactionsScreen.NewestFirstAllPairs | components/Transactions.tsx:44 | In a newest-first list every record is at least as recent as every later one |
| TransactionsScreen.InsertByDate | components/Transactions.tsx:44 | Inserting into a newest-first list gives a newest-first list with one more copy of the record |
| TransactionsScreen.SortedTransactions | components/Transactions.tsx:44 | The displayed list is a permutation of the store, newest date first |
| TransactionsScreen.DisplayOrder | components/Transactions.tsx:44 | A record shown above another in the displayed list is at least as recent |
| TransactionsScreen.DisplaySameRecords | components/Transactions.tsx:44 | The displayed list shows exactly the records of the store |
| GoalsScreen.GoalStep | components/Goals.tsx:151-155 | The icon buttons keep the selected icon among the offered icons |
| GoalsScreen.GoalStepsKeepIcon | components/Goals.tsx:19 | After any sequence of form events the selected icon is one of the offered icons |
| GoalsScreen.ColorIndex | components/Goals.tsx:29 | For a random number in [0, 1) the colour index is a valid palette index |
| GoalsScreen.HandleAdd | components/Goals.tsx:21-34 | The new goal is appended with the form's title and icon, the parsed target, nothing saved, a deadline 7,776,000,000 ms ahead and a palette colour; the title and target are cleared and the form closes |
| GoalsScreen.HandleAddKeepsWithinTarget | components/Goals.tsx:23-30 | Creating a goal with a non-negative target keeps all goals within target |
| GoalsScreen.GoalsPercentLabel | components/Goals.tsx:61-75 | The label is at most 100, non-negative for a non-negative amount, and 100 once the target is reached |
| GoalsScreen.PercentLabelsAgree | components/Goals.tsx:61-75 | Up to its target a goal shows the same percentage on the goals screen and the dashboard |
| GoalsScreen.ButtonContribution | components/Goals.tsx:94-105 | For a goal not above its target, a +500 or +1000 press never lowers the saved amount, keeps it within target, and leaves a goal at its target there |
| GoalsScreen.PressAll | components/Goals.tsx:95-101 | A series of presses keeps the number of goals |
| GoalsScreen.ButtonsOnlyIncrease | components/Goals.tsx:94-105 | Through the buttons alone, a goal not above its target never decreases or passes its target, and once at target stays there |
| GoalsScreen.NegativeTargetFirstPress | components/Goals.tsx:94-105 | A goal created with a negative target starts at 0 and its first press drops the saved amount to that negative target |
| Advice.WithTypeValue | services/geminiService.ts:19 | The filter keeps the records whose type value equals the literal and no others; through WithTypeValueIsOfType it is the dashboard filter, so it also keeps every copy in order |
| Advice.WithTypeValueIsOfType | services/geminiService.ts:18-23 | Filtering on the literal 'income' or 'expense' selects the same records as filtering on the type |
| Advice.SnapshotTotal | services/geminiService.ts:18-23 | The snapshot's totals cover the whole list and equal the dashboard's income and expense totals |
| Advice.Recent | services/geminiService.ts:17 | The recent entries are the first min(20, n) records in store order, each as category, amount and note |
| Advice.Join | services/geminiService.ts:25 | Joining no pieces gives the empty string; otherwise the result starts with the first piece and is as long as the pieces plus one separator per neighbouring pair |
| Advice.JoinSnoc | services/geminiService.ts:25 | Joining one more piece adds the separator and that piece at the end |
| Advice.GoalPiece | services/geminiService.ts:25 | A goal's piece is its title, then ": ₹", then the rendered saved amount, then "/₹", then the rendered target, and nothing else |
| Advice.GoalPieces | services/geminiService.ts:25 | One `title: ₹current/₹target` piece per goal, in order |
| Advice.SummaryEmptyIffNoGoals | services/geminiService.ts:25 | The joined summary is empty exactly when there are no goals, and it is never "None" |
| Advice.ActiveGoals | services/geminiService.ts:32 | The text is "None" exactly when there are no goals; otherwise it is the pieces joined by ", " |
| Advice.BuildSnapshot | services/geminiService.ts:16-33 | The snapshot's totals add up to the sum of all amounts, their difference is the dashboard balance, the recent entries are the first min(20, n) records as category, amount and note, and the goal text is the "None"-or-joined summary |
| Advice.Answer | services/geminiService.ts:41-55 | Non-empty reply text is returned as is; empty or missing text gives the no-advice text, and a failed call gives the apology |
| Advice.GetFinancialAdvice | services/geminiService.ts:12-55 | An empty key returns the missing-key message and makes no request; otherwise the snapshot is requested and the answer follows the call's outcome; the answer is never empty |

## Left out

- Rendering, styling, the privacy toggle, `formatCurrency` and the navigation bar: presentation only.
- Browser storage and JSON encoding of the collections (App.tsx:26-41): a library outside the model. Start-up is modelled only as "stored collection if present, else seed", so the save/load round trip is not stated.
- The prompt wording and the client of the text-generation service: the call is an opaque outcome supplied by the caller, and the query is only carried in the request.
- The rendering of numbers in the goal summary is the parameter `render`; `parseFloat` is replaced by the parsed value the caller supplies.
- Floating point: amounts are integers and the percentages are exact rationals, not doubles. Rounding is therefore exact where JavaScript is not: `Math.round(29 / 200 * 100)` is 14 in the app (the product is 14.499999999999998) but 15 in `GoalsScreen.GoalsPercentLabel`. NaN and Infinity are not modelled.
- GoalsScreen.ButtonContribution, GoalsScreen.ButtonsOnlyIncrease: they hold only for a goal whose saved amount is not above its target. A goal created with a negative target starts at 0, and its first press lowers the saved amount to that target (App.tsx:61), as NegativeTargetFirstPress states.
- Dashboard.ProgressPercent, Dashboard.DashboardPercentLabel, GoalsScreen.GoalsPercentLabel: they require a positive target. A zero target divides by zero. The goal form also accepts a negative target, and the percentages for one are not modelled.
- Id generation from the clock, the random colour draw, and ISO date strings. Ids, the random number and timestamps are parameters, and ids are not assumed unique.
- Dashboard.CategoryData: the order in which the app lists the categories (JavaScript puts integer-like keys first) is not modelled; the breakdown is a map.
- Dashboard.CategoryData: `catMap` is a plain JavaScript object, so a category named after an `Object.prototype` property is not modelled. For "__proto__" the app's assignment is ignored and the expense never shows; for "constructor", "toString" and the like the lookup starts from the inherited function and the value becomes a string. The model treats every category as an ordinary key, since a map has no inherited entries.
- Dashboard.Bump: for a category named after an `Object.prototype` property the app's step does not add the amount to a number (see CategoryData); the model's step always does.
- Dashboard.Tally: same restriction as Bump; for "__proto__" the app's object gains no key, while the model's map does.
- Dashboard.TallyContents: same restriction as Bump; its key and value statements hold in the app only for ordinary category names.
- Dashboard.TallySum: same restriction as Bump; in the app an inherited-name expense does not raise the sum of the numeric values.
- Dashboard.CategoryDataSumsToExpense: same restriction as Bump; in the app an expense under "__proto__" is missing from the chart while it still counts in the expense total.
- Dashboard.TopGoals: the "No goals yet" placeholder for an empty list is markup; the slice itself is modelled.
- TransactionsScreen.SortedTransactions: stability (equal dates keep store order) is how the insertion is written, but it is not stated as a property; dates that do not parse are not modelled.
- The HTML `required` attributes on the goal form inputs are browser validation: `HandleAdd`, like the handler, adds a goal for whatever parsed target it is given.
- Advice.Answer: the `console.error` logging in the error branch (services/geminiService.ts:53) is a side effect with no bearing on the answer.
- The chat screen (components/AIAdvisor.tsx) and the mock challenges (components/Social.tsx): UI around the advice call and constant data.

=== FILE: advice.dfy ===
/**
 * The pure part of the advice request: the missing-key short cut, the
 * snapshot of the two stores sent along with the question, and the choice
 * between the model's reply and the fixed fallback texts. The model itself
 * is opaque: the caller supplies what the call produced. The prompt wording
 * and the rendering of numbers are outside the model; `render` stands for
 * the latter.
 */
module Advice {
  import opened Types
  import Dashboard

  const MissingKeyMessage: string := "API Key is missing. Please set the process.env.API_KEY."
  const NoAdviceMessage: string := "I couldn't generate advice right now. Try again later!"
  const ConnectionErrorMessage: string := "Sorry, I'm having trouble connecting to the financial brain right now."

  /** How many of the most recently added records go into the snapshot. */
  const RecentLimit: nat := 20

  /** What the call to the text-generation model produced. */
  datatype ModelOutcome =
    | Reply(text: string)   // a response, possibly with empty text
    | NoText                // a response without text
    | Failed                // the call threw

  /** The `{cat, amt, note}` summary of one recent record. */
  datatype RecentEntry = RecentEntry(cat: string, amt: int, note: string)

  /** The figures the prompt is built from. */
  datatype Snapshot = Snapshot(
    recent: seq<RecentEntry>,
    incomeTotal: int,
    expenseTotal: int,
    activeGoals: string,
    query: string)

  /** The answer, together with the request sent to the model, if any. */
  datatype AdviceResult = AdviceResult(answer: string, request: Option<Snapshot>)

  /** The records whose type value is the given string: the app compares
      the stored type with the literals 'income' and 'expense'. */
  function WithTypeValue(ts: seq<Transaction>, value: string): (r: seq<Transaction>)
    ensures forall t :: t in r <==> t in ts && t.kind.Value() == value
  {
    if |ts| == 0 then []
    else (if ts[0].kind.Value() == value then [ts[0]] else []) + WithTypeValue(ts[1..], value)
  }

  /** Comparing with the literal string selects the same records as
      comparing with the type. */
  lemma {:induction false} WithTypeValueIsOfType(ts: seq<Transaction>, k: TransactionType)
    ensures WithTypeValue(ts, k.Value()) == Dashboard.OfType(ts, k)
  {
    if |ts| > 0 {
      TypeValueRoundTrip(ts[0].kind, k);
      WithTypeValueIsOfType(ts[1..], k);
    }
  }

  /** The income and expense totals of the snapshot: taken over the whole
      list, not only the recent part, they equal the dashboard's totals. */
  function SnapshotTotal(ts: seq<Transaction>, value: string): (total: int)
    ensures value == Income.Value() ==> total == Dashboard.CalculateTotal(ts, Income)
    ensures value == Expense.Value() ==> total == Dashboard.CalculateTotal(ts, Expense)
  {
    WithTypeValueIsOfType(ts, Income);
    WithTypeValueIsOfType(ts, Expense);
    Dashboard.Reduce(0, WithTypeValue(ts, value))
  }

  /** The summaries of the first `min(20, n)` records, in store order: a
      prefix of the store, not the newest by date. */
  function Recent(ts: seq<Transaction>): (r: seq<RecentEntry>)
    ensures |r| == Min(RecentLimit, |ts|)
    ensures forall i :: 0 <= i < |r| ==>
      r[i] == RecentEntry(ts[i].category, ts[i].amount, ts[i].note)
  {
    var n := Min(RecentLimit, |ts|);
    seq(n, i requires 0 <= i < n => RecentEntry(ts[i].category, ts[i].amount, ts[i].note))
  }

  /** The `title: ₹current/₹target` piece for one goal: the title, then a
      colon, a space and the rupee sign, the rendered saved amount, a slash
      and the rupee sign, and the rendered target last. */
  function GoalPiece(g: Goal, render: int -> string): (r: string)
    ensures |r| == |g.title| + |render(g.currentAmount)| + |render(g.targetAmount)| + 5
    ensures r[..|g.title|] == g.title
    ensures r[|g.title|..|g.title| + 3] == ": \U{20B9}"
    ensures r[|g.title| + 3..|g.title| + 3 + |render(g.currentAmount)|] == render(g.currentAmount)
    ensures r[|g.title| + 3 + |render(g.currentAmount)|..|r| - |render(g.targetAmount)|] == "/\U{20B9}"
    ensures r[|r| - |render(g.targetAmount)|..] == render(g.targetAmount)
  {
    g.title + ": \U{20B9}" + render(g.currentAmount) + "/\U{20B9}" + render(g.targetAmount)
  }

  /** Total length of a list of strings. */
  function TotalLength(pieces: seq<string>): nat {
    if |pieces| == 0 then 0 else |pieces[0]| + TotalLength(pieces[1..])
  }

  /** `pieces.join(sep)`: nothing for no pieces, otherwise the pieces with
      one separator between each neighbouring pair. */
  function Join(pieces: seq<string>, sep: string): (r: string)
    ensures |pieces| == 0 ==> r == ""
    ensures |pieces| > 0 ==> |r| == TotalLength(pieces) + (|pieces| - 1) * |sep|
    ensures |pieces| > 0 ==> r[..|pieces[0]|] == pieces[0]
    decreases |pieces|
  {
    if |pieces| == 0 then ""
    else if |pieces| == 1 then pieces[0]
    else pieces[0] + sep + Join(pieces[1..], sep)
  }

  /** Joining one more piece at the end adds the separator and that piece. */
  lemma {:induction false} JoinSnoc(pieces: seq<string>, p: string, sep: string)
    requires |pieces| > 0
    ensures Join(pieces + [p], sep) == Join(pieces, sep) + sep + p
    decreases |pieces|
  {
    var s := pieces + [p];
    assert s[0] == pieces[0];
    if |pieces| == 1 {
      assert s[1..] == [p];
    } else {
      assert s[1..] == pieces[1..] + [p];
      JoinSnoc(pieces[1..], p, sep);
    }
  }

  function GoalPieces(goals: seq<Goal>, render: int -> string): (r: seq<string>)
    ensures |r| == |goals|
    ensures forall i :: 0 <= i < |goals| ==> r[i] == GoalPiece(goals[i], render)
  {
    seq(|goals|, i requires 0 <= i < |goals| => GoalPiece(goals[i], render))
  }

  /** `goalsSummary || 'None'`: the goal pieces joined by ", ", or "None"
      exactly when there are no goals (a piece is never empty). */
  function ActiveGoals(goals: seq<Goal>, render: int -> string): (r: string)
    ensures |goals| == 0 <==> r == "None"
    ensures |goals| > 0 ==> r == Join(GoalPieces(goals, render), ", ")
  {
    var summary := Join(GoalPieces(goals, render), ", ");
    SummaryEmptyIffNoGoals(goals, render);
    if summary == "" then "None" else summary
  }

  /** The joined summary is empty exactly when there are no goals, and it is
      never the word "None": with a goal it starts with that goal's piece,
      which holds a rupee sign. */
  lemma SummaryEmptyIffNoGoals(goals: seq<Goal>, render: int -> string)
    ensures Join(GoalPieces(goals, render), ", ") == "" <==> |goals| == 0
    ensures Join(GoalPieces(goals, render), ", ") != "None"
  {
    if |goals| > 0 {
      var pieces := GoalPieces(goals, render);
      var summary := Join(pieces, ", ");
      var n := |goals[0].title|;
      assert pieces[0][n + 2] == '\U{20B9}';
      assert summary[n + 2] == '\U{20B9}';
    }
  }

  /** The snapshot of the stores that goes into the prompt. */
  function BuildSnapshot(ts: seq<Transaction>, goals: seq<Goal>, query: string, render: int -> string): (s: Snapshot)
    ensures s.incomeTotal + s.expenseTotal == Dashboard.SumAmounts(ts)
    ensures s.incomeTotal - s.expenseTotal == Dashboard.Balance(ts)
    ensures s.recent == Recent(ts)
    ensures |s.recent| == Min(RecentLimit, |ts|)
    ensures s.activeGoals == ActiveGoals(goals, render)
    ensures s.query == query
  {
    Dashboard.TotalsPartition(ts);
    Snapshot(Recent(ts), SnapshotTotal(ts, "income"), SnapshotTotal(ts, "expense"),
             ActiveGoals(goals, render), query)
  }

  /** The answer for what the model call produced: its text when non-empty,
      the no-advice text when there is none, the apology when it threw. */
  function Answer(outcome: ModelOutcome): (r: string)
    ensures outcome.Reply? && outcome.text != "" ==> r == outcome.text
    ensures outcome.Reply? && outcome.text == "" ==> r == NoAdviceMessage
    ensures outcome.NoText? ==> r == NoAdviceMessage
    ensures outcome.Failed? ==> r == ConnectionErrorMessage
    ensures r != ""
  {
    match outcome
    case Reply(text) => if text != "" then text else NoAdviceMessage
    case NoText => NoAdviceMessage
    case Failed => ConnectionErrorMessage
  }

  /** `getFinancialAdvice`. With an empty key the fixed message is returned
      and no request is made; otherwise the snapshot is sent and the answer
      follows from what the call produced. The function never fails. */
  function GetFinancialAdvice(apiKey: string, ts: seq<Transaction>, goals: seq<Goal>, query: string,
                              render: int -> string, outcome: ModelOutcome): (r: AdviceResult)
    ensures apiKey == "" <==> r.request.None?
    ensures apiKey == "" ==> r.answer == MissingKeyMessage
    ensures apiKey != "" ==> r.request == Some(BuildSnapshot(ts, goals, query, render))
    ensures apiKey != "" ==> r.answer == Answer(outcome)
    ensures r.answer != ""
  {
    if apiKey == "" then AdviceResult(MissingKeyMessage, None)
    else AdviceResult(Answer(outcome), Some(BuildSnapshot(ts, goals, query, render)))
  }
}

=== FILE: dashboard.dfy ===
/**
 * The dashboard's derived figures: per-type totals, the balance, the
 * per-category expense breakdown, the "top goals" strip and the goal
 * progress percentages. All of them are recomputed from the stores on every
 * render, so they are pure functions of the current collections.
 */
module Dashboard {
  import opened Types

  /** The records of one type, in store order (the `filter` step). */
  function OfType(ts: seq<Transaction>, k: TransactionType): (r: seq<Transaction>)
    ensures |r| <= |ts|
    ensures forall t :: t in r <==> t in ts && t.kind == k
  {
    if |ts| == 0 then []
    else (if ts[0].kind == k then [ts[0]] else []) + OfType(ts[1..], k)
  }

  /** Filtering distributes over concatenation. Together with the
      one-record case this pins the filter down as order-preserving and
      keeping every copy of a repeated record. */
  lemma {:induction false} OfTypeAppend(a: seq<Transaction>, b: seq<Transaction>, k: TransactionType)
    ensures OfType(a + b, k) == OfType(a, k) + OfType(b, k)
  {
    if |a| == 0 {
      assert a + b == b;
    } else {
      var s := a + b;
      assert s[0] == a[0] && s[1..] == a[1..] + b;
      OfTypeAppend(a[1..], b, k);
      var head: seq<Transaction> := if a[0].kind == k then [a[0]] else [];
      calc {
        OfType(s, k);
        head + OfType(a[1..] + b, k);
        head + (OfType(a[1..], k) + OfType(b, k));
        { assert head + (OfType(a[1..], k) + OfType(b, k)) == (head + OfType(a[1..], k)) + OfType(b, k); }
        (head + OfType(a[1..], k)) + OfType(b, k);
      }
    }
  }

  /** A one-record list keeps its record exactly when it has the type. */
  lemma OfTypeSingle(t: Transaction, k: TransactionType)
    ensures OfType([t], k) == if t.kind == k then [t] else []
  {
    assert [t][1..] == [];
  }

  /** Sum of amounts, as a reference definition. */
  function SumAmounts(ts: seq<Transaction>): int {
    if |ts| == 0 then 0 else ts[0].amount + SumAmounts(ts[1..])
  }

  /** The `reduce((acc, curr) => acc + curr.amount, acc)` left fold: the
      start value plus the sum of the amounts. */
  function Reduce(acc: int, ts: seq<Transaction>): (r: int)
    ensures r == acc + SumAmounts(ts)
    decreases |ts|
  {
    if |ts| == 0 then acc else Reduce(acc + ts[0].amount, ts[1..])
  }

  lemma {:induction false} SumAmountsAppend(a: seq<Transaction>, b: seq<Transaction>)
    ensures SumAmounts(a + b) == SumAmounts(a) + SumAmounts(b)
  {
    if |a| == 0 {
      assert a + b == b;
    } else {
      assert (a + b)[1..] == a[1..] + b;
      SumAmountsAppend(a[1..], b);
    }
  }

  /** `calculateTotal(type)`: the sum of the amounts of the records of that
      type; zero when no record has that type (in particular for an empty
      store). */
  function CalculateTotal(ts: seq<Transaction>, k: TransactionType): (total: int)
    ensures total == SumAmounts(OfType(ts, k))
    ensures (forall t :: t in ts ==> t.kind != k) ==> total == 0
  {
    Reduce(0, OfType(ts, k))
  }

  /** The total of a list that starts with `t` is `t`'s amount (when it has
      the type asked for) plus the total of the rest. */
  lemma {:induction false} TotalCons(t: Transaction, ts: seq<Transaction>, k: TransactionType)
    ensures CalculateTotal([t] + ts, k)
         == (if t.kind == k then t.amount else 0) + CalculateTotal(ts, k)
  {
    var s := [t] + ts;
    assert s[0] == t && s[1..] == ts;
    var head := if t.kind == k then [t] else [];
    assert OfType(s, k) == head + OfType(ts, k);
    SumAmountsAppend(head, OfType(ts, k));
  }

  /** The totals of the two types split the sum of all amounts: every record
      counts toward exactly one of them. */
  lemma {:induction false} TotalsPartition(ts: seq<Transaction>)
    ensures CalculateTotal(ts, Income) + CalculateTotal(ts, Expense) == SumAmounts(ts)
  {
    if |ts| > 0 {
      assert ts == [ts[0]] + ts[1..];
      TotalCons(ts[0], ts[1..], Income);
      TotalCons(ts[0], ts[1..], Expense);
      TotalsPartition(ts[1..]);
    }
  }

  /** Each record's contribution to the balance, with its sign. */
  function SignedSum(ts: seq<Transaction>): int {
    if |ts| == 0 then 0
    else (if ts[0].kind == Income then ts[0].amount else -ts[0].amount) + SignedSum(ts[1..])
  }

  /** Income total less expense total is the signed sum of all records:
      income adds, expense subtracts. */
  lemma {:induction false} TotalsDifference(ts: seq<Transaction>)
    ensures CalculateTotal(ts, Income) - CalculateTotal(ts, Expense) == SignedSum(ts)
  {
    if |ts| > 0 {
      assert ts == [ts[0]] + ts[1..];
      TotalCons(ts[0], ts[1..], Income);
      TotalCons(ts[0], ts[1..], Expense);
      TotalsDifference(ts[1..]);
    }
  }

  /** The balance shown on the card, `totalIncome - totalExpense`. */
  function Balance(ts: seq<Transaction>): (b: int)
    ensures b == SignedSum(ts)
    ensures b == CalculateTotal(ts, Income) - CalculateTotal(ts, Expense)
  {
    TotalsDifference(ts);
    CalculateTotal(ts, Income) - CalculateTotal(ts, Expense)
  }

  // ---------------------------------------------------------------------
  // Per-category expense breakdown

  /** The records whose category is `c`, in order. */
  function WithCategory(ts: seq<Transaction>, c: string): (r: seq<Transaction>)
    ensures forall t :: t in r <==> t in ts && t.category == c
  {
    if |ts| == 0 then []
    else (if ts[0].category == c then [ts[0]] else []) + WithCategory(ts[1..], c)
  }

  /** Reference definition: the summed amount of the expense records in
      category `c`. */
  function CategoryTotal(ts: seq<Transaction>, c: string): int {
    SumAmounts(WithCategory(OfType(ts, Expense), c))
  }

  /** One `catMap[t.category] = (catMap[t.category] || 0) + t.amount` step:
      the record's category becomes (or stays) a key, its value grows by the
      amount, and every other entry is left as it was. */
  function Bump(m: map<string, int>, t: Transaction): (r: map<string, int>)
    ensures r.Keys == m.Keys + {t.category}
    ensures r[t.category] == (if t.category in m then m[t.category] else 0) + t.amount
    ensures forall c :: c in m && c != t.category ==> r[c] == m[c]
  {
    m[t.category := (if t.category in m then m[t.category] else 0) + t.amount]
  }

  /** The categories of a list of records. */
  function Categories(es: seq<Transaction>): set<string> {
    set t | t in es :: t.category
  }

  /** The `forEach` over the records, left to right: the keys afterwards are
      the keys before plus the categories of the tallied records. */
  function Tally(m: map<string, int>, es: seq<Transaction>): (r: map<string, int>)
    ensures r.Keys == m.Keys + Categories(es)
    decreases |es|
  {
    if |es| == 0 then m
    else
      assert Categories(es) == {es[0].category} + Categories(es[1..]) by {
        assert forall t :: t in es <==> t == es[0] || t in es[1..];
      }
      Tally(Bump(m, es[0]), es[1..])
  }

  /** After tallying, a key is present exactly when it was already present or
      some tallied record has that category, and its value is the old value
      (zero when absent) plus the amounts of those records. */
  lemma {:induction false} TallyContents(m: map<string, int>, es: seq<Transaction>, c: string)
    ensures c in Tally(m, es) <==> c in m || exists t :: t in es && t.category == c
    ensures c in Tally(m, es) ==>
      Tally(m, es)[c] == (if c in m then m[c] else 0) + SumAmounts(WithCategory(es, c))
    decreases |es|
  {
    if |es| > 0 {
      var m' := Bump(m, es[0]);
      TallyContents(m', es[1..], c);
      assert es == [es[0]] + es[1..];
      var head := if es[0].category == c then [es[0]] else [];
      assert WithCategory(es, c) == head + WithCategory(es[1..], c);
      SumAmountsAppend(head, WithCategory(es[1..], c));
      if c in Tally(m, es) && !(c in m) && es[0].category != c {
        var t :| t in es[1..] && t.category == c;
        assert t in es;
      }
      if exists t :: t in es && t.category == c {
        var t :| t in es && t.category == c;
        assert t == es[0] || t in es[1..];
      }
    }
  }

  /** `categoryData`: one entry per category that some expense record has,
      holding the summed expense amount of that category. Income records
      never contribute. Being a map, it has no duplicate names; the order in
      which the app enumerates the keys is not modelled. */
  function CategoryData(ts: seq<Transaction>): (m: map<string, int>)
    ensures forall c :: c in m <==> exists t :: t in ts && t.kind == Expense && t.category == c
    ensures forall c :: c in m ==> m[c] == CategoryTotal(ts, c)
  {
    var es := OfType(ts, Expense);
    var m := Tally(map[], es);
    forall c
      ensures c in m <==> exists t :: t in ts && t.kind == Expense && t.category == c
      ensures c in m ==> m[c] == CategoryTotal(ts, c)
    {
      TallyContents(map[], es, c);
    }
    m
  }

  /** An arbitrary key of a non-empty map. */
  ghost function Pick(m: map<string, int>): (k: string)
    requires |m| > 0
    ensures k in m
  {
    var k :| k in m; k
  }

  /** Sum of the values of a map. */
  ghost function SumValues(m: map<string, int>): int
    decreases |m|
  {
    if |m| == 0 then 0
    else
      var k := Pick(m);
      assert |m - {k}| < |m| by { assert (m - {k}).Keys == m.Keys - {k}; }
      m[k] + SumValues(m - {k})
  }

  /** The sum does not depend on which key is taken out first. */
  lemma {:induction false} SumValuesRemove(m: map<string, int>, k: string)
    requires k in m
    ensures SumValues(m) == m[k] + SumValues(m - {k})
    decreases |m|
  {
    var j := Pick(m);
    if j != k {
      assert (m - {j}).Keys == m.Keys - {j};
      assert (m - {k}).Keys == m.Keys - {k};
      SumValuesRemove(m - {j}, k);
      SumValuesRemove(m - {k}, j);
      assert m - {j} - {k} == m - {k} - {j};
    }
  }

  /** Effect of one `Bump` on the sum of the values. */
  lemma BumpSum(m: map<string, int>, t: Transaction)
    ensures SumValues(Bump(m, t)) == SumValues(m) + t.amount
  {
    var m' := Bump(m, t);
    SumValuesRemove(m', t.category);
    if t.category in m {
      SumValuesRemove(m, t.category);
      assert m' - {t.category} == m - {t.category};
    } else {
      assert m' - {t.category} == m;
    }
  }

  lemma {:induction false} TallySum(m: map<string, int>, es: seq<Transaction>)
    ensures SumValues(Tally(m, es)) == SumValues(m) + SumAmounts(es)
    decreases |es|
  {
    if |es| > 0 {
      BumpSum(m, es[0]);
      TallySum(Bump(m, es[0]), es[1..]);
    }
  }

  /** The category values add up to the expense total shown in the centre of
      the chart. */
  lemma CategoryDataSumsToExpense(ts: seq<Transaction>)
    ensures SumValues(CategoryData(ts)) == CalculateTotal(ts, Expense)
  {
    TallySum(map[], OfType(ts, Expense));
    assert SumValues(map[]) == 0;
  }

  // ---------------------------------------------------------------------
  // Goals on the dashboard

  /** The "Top Goals" strip: the first (at most) three goals in store order. */
  function TopGoals(goals: seq<Goal>): (r: seq<Goal>)
    ensures |r| == Min(3, |goals|)
    ensures r <= goals
  {
    goals[..Min(3, |goals|)]
  }

  /** `Math.min(current / target * 100, 100)`: the width of a progress bar,
      which is also the percentage shown on the goals screen. */
  function ProgressPercent(current: int, target: int): (p: real)
    requires target > 0
    ensures p <= 100.0
    ensures current >= 0 ==> p >= 0.0
    ensures p == 100.0 <==> current >= target
    ensures current < target ==> p * target as real == current as real * 100.0
  {
    var raw := (current as real / target as real) * 100.0;
    RatioAtLeastOne(current, target);
    if raw <= 100.0 then raw else 100.0
  }

  lemma RatioAtLeastOne(current: int, target: int)
    requires target > 0
    ensures (current as real / target as real) * 100.0 >= 100.0 <==> current >= target
    ensures (current as real / target as real) * 100.0 * target as real == current as real * 100.0
  {
    var q := current as real / target as real;
    assert q * target as real == current as real;
  }

  /** JavaScript's `Math.round`: the nearest integer, halves rounded up. */
  function JsRound(x: real): (r: int)
    ensures x - 0.5 < r as real <= x + 0.5
  {
    (x + 0.5).Floor
  }

  /** The unclamped percentage label of a dashboard goal card,
      `Math.round(current / target * 100)`. */
  function DashboardPercentLabel(current: int, target: int): (r: int)
    requires target > 0
    ensures current >= 0 ==> r >= 0
    ensures current <= target ==> r <= 100
    ensures current > target ==> r >= 100
  {
    RatioAtLeastOne(current, target);
    JsRound((current as real / target as real) * 100.0)
  }
}

=== FILE: goals.dfy ===
/**
 * The goals screen: creating a goal from the form (its defaults, icon and
 * colour), the percentage each goal card shows, and the two fixed
 * contribution buttons.
 */
module GoalsScreen {
  import opened Types
  import Store
  import Dashboard

  /** The icons the form offers, the first one preselected. */
  const Icons: seq<string> := [
    "\U{1F680}", "\U{1F4BB}", "\U{2708}\U{FE0F}", "\U{1F393}",
    "\U{1F3B8}", "\U{1F3E0}", "\U{1F697}", "\U{1F4F1}"]

  /** The colours a new goal is given one of at random. */
  const Colors: seq<string> := ["#06b6d4", "#ec4899", "#84cc16", "#f97316", "#d946ef"]

  /** A new goal is due ninety days after it is created, in milliseconds. */
  const NinetyDaysMs: int := 90 * 24 * 60 * 60 * 1000

  /** The amounts the two contribution buttons add. */
  const SmallContribution: int := 500
  const LargeContribution: int := 1000

  datatype GoalForm = GoalForm(isAdding: bool, title: string, target: string, selectedIcon: string)

  /** The form as the screen first shows it. */
  const InitialGoalForm: GoalForm := GoalForm(false, "", "", Icons[0])

  /** What the user can do to the form before submitting it. */
  datatype GoalFormEvent =
    | OpenForm
    | CloseForm
    | EnterTitle(titleText: string)
    | EnterTarget(targetText: string)
    | ChooseIcon(icon: string)

  /** Only the offered icons have a button. */
  predicate ValidGoalEvent(e: GoalFormEvent) {
    e.ChooseIcon? ==> e.icon in Icons
  }

  function GoalStep(f: GoalForm, e: GoalFormEvent): (r: GoalForm)
    ensures ValidGoalEvent(e) && f.selectedIcon in Icons ==> r.selectedIcon in Icons
  {
    match e
    case OpenForm => f.(isAdding := true)
    case CloseForm => f.(isAdding := false)
    case EnterTitle(s) => f.(title := s)
    case EnterTarget(s) => f.(target := s)
    case ChooseIcon(i) => f.(selectedIcon := i)
  }

  function GoalSteps(f: GoalForm, es: seq<GoalFormEvent>): GoalForm
    decreases |es|
  {
    if |es| == 0 then f else GoalSteps(GoalStep(f, es[0]), es[1..])
  }

  /** Starting from the initial form, the selected icon is always one of the
      offered icons, whatever the user does. */
  lemma {:induction false} GoalStepsKeepIcon(f: GoalForm, es: seq<GoalFormEvent>)
    requires f.selectedIcon in Icons
    requires forall i :: 0 <= i < |es| ==> ValidGoalEvent(es[i])
    ensures GoalSteps(f, es).selectedIcon in Icons
    decreases |es|
  {
    if |es| > 0 {
      assert ValidGoalEvent(es[0]);
      assert forall i :: 0 <= i < |es[1..]| ==> es[1..][i] == es[i + 1];
      GoalStepsKeepIcon(GoalStep(f, es[0]), es[1..]);
    }
  }

  /** `Math.floor(Math.random() * COLORS.length)` for a `random` drawn from
      [0, 1), as `Math.random` guarantees. */
  function ColorIndex(random: real): (i: int)
    requires 0.0 <= random < 1.0
    ensures 0 <= i < |Colors|
  {
    (random * |Colors| as real).Floor
  }

  datatype Added = Added(form: GoalForm, goals: seq<Goal>)

  /** `handleAdd`. `parsedTarget` is what `parseFloat` made of the target
      text, `now` the creation time and `random` the value `Math.random`
      returned; all three, like `id`, come from outside the model. The new
      goal goes at the end with nothing saved yet, a ninety-day deadline, the
      selected icon and a colour from the palette; the title and target
      inputs are cleared and the form closes. */
  function HandleAdd(f: GoalForm, goals: seq<Goal>, parsedTarget: int, now: int, random: real, id: string): (r: Added)
    requires 0.0 <= random < 1.0
    ensures |r.goals| == |goals| + 1
    ensures r.goals[..|goals|] == goals
    ensures r.goals[|goals|].id == id
    ensures r.goals[|goals|].title == f.title
    ensures r.goals[|goals|].targetAmount == parsedTarget
    ensures r.goals[|goals|].currentAmount == 0
    ensures r.goals[|goals|].deadline == now + 7776000000
    ensures r.goals[|goals|].icon == f.selectedIcon
    ensures r.goals[|goals|].color in Colors
    ensures r.form == GoalForm(false, "", "", f.selectedIcon)
  {
    var d := GoalDraft(f.title, parsedTarget, 0, now + NinetyDaysMs, f.selectedIcon, Colors[ColorIndex(random)]);
    Added(f.(isAdding := false, title := "", target := ""), Store.AddGoal(goals, d, id))
  }

  /** A goal created through the form keeps its target: saved amounts stay
      within target for the whole list when the new target is not
      negative. */
  lemma HandleAddKeepsWithinTarget(f: GoalForm, goals: seq<Goal>, parsedTarget: int, now: int, random: real, id: string)
    requires 0.0 <= random < 1.0
    requires Store.WithinTarget(goals) && parsedTarget >= 0
    ensures Store.WithinTarget(HandleAdd(f, goals, parsedTarget, now, random, id).goals)
  {
    var r := HandleAdd(f, goals, parsedTarget, now, random, id).goals;
    assert r == goals + [r[|goals|]];
    assert forall g :: g in r ==> g in goals || g == r[|goals|];
  }

  /** The percentage label of a goal card, `Math.round(percent)` with
      `percent` the clamped progress: never above 100, and not negative for
      a goal whose saved amount is not negative. */
  function GoalsPercentLabel(current: int, target: int): (r: int)
    requires target > 0
    ensures r <= 100
    ensures current >= 0 ==> r >= 0
    ensures r == 100 <== current >= target
  {
    Dashboard.JsRound(Dashboard.ProgressPercent(current, target))
  }

  /** The goals screen and the dashboard card show the same label for a goal
      that has not passed its target. */
  lemma PercentLabelsAgree(current: int, target: int)
    requires target > 0
    ensures current <= target ==>
      Dashboard.DashboardPercentLabel(current, target) == GoalsPercentLabel(current, target)
  {
    Dashboard.RatioAtLeastOne(current, target);
  }

  // ---------------------------------------------------------------------
  // Contributions through the buttons

  predicate ButtonDelta(delta: int) {
    delta == SmallContribution || delta == LargeContribution
  }

  /** One button press on a goal whose saved amount is not above its target:
      the saved amount does not go down, stays within the target, and a goal
      that has reached its target stays there. */
  lemma ButtonContribution(goals: seq<Goal>, id: string, delta: int, i: int)
    requires ButtonDelta(delta)
    requires 0 <= i < |goals| && goals[i].currentAmount <= goals[i].targetAmount
    ensures var r := Store.UpdateGoalAmount(goals, id, delta);
      && goals[i].currentAmount <= r[i].currentAmount <= goals[i].targetAmount
      && r[i].targetAmount == goals[i].targetAmount
      && (goals[i].currentAmount == goals[i].targetAmount ==> r[i].currentAmount == goals[i].targetAmount)
  {
  }

  /** A goal the form created with a negative target starts at 0, above its
      target; its first button press drops the saved amount to that target,
      below zero. */
  lemma NegativeTargetFirstPress(goals: seq<Goal>, i: int, delta: int)
    requires ButtonDelta(delta)
    requires 0 <= i < |goals| && goals[i].currentAmount == 0 && goals[i].targetAmount < 0
    ensures var r := Store.UpdateGoalAmount(goals, goals[i].id, delta);
      r[i].currentAmount == goals[i].targetAmount < goals[i].currentAmount
  {
  }

  /** Applies a series of button presses, each naming a goal id. */
  function PressAll(goals: seq<Goal>, presses: seq<(string, int)>): (r: seq<Goal>)
    ensures |r| == |goals|
    decreases |presses|
  {
    if |presses| == 0 then goals
    else PressAll(Store.UpdateGoalAmount(goals, presses[0].0, presses[0].1), presses[1..])
  }

  /** Through the buttons alone, a goal whose saved amount is not above its
      target never decreases, never passes its target, and once at its target
      stays there. */
  lemma {:induction false} ButtonsOnlyIncrease(goals: seq<Goal>, presses: seq<(string, int)>, i: int)
    requires forall k :: 0 <= k < |presses| ==> ButtonDelta(presses[k].1)
    requires 0 <= i < |goals| && goals[i].currentAmount <= goals[i].targetAmount
    ensures var r := PressAll(goals, presses);
      && goals[i].currentAmount <= r[i].currentAmount <= goals[i].targetAmount
      && (goals[i].currentAmount == goals[i].targetAmount ==> r[i].currentAmount == goals[i].targetAmount)
    decreases |presses|
  {
    if |presses| > 0 {
      assert ButtonDelta(presses[0].1);
      var next := Store.UpdateGoalAmount(goals, presses[0].0, presses[0].1);
      ButtonContribution(goals, presses[0].0, presses[0].1, i);
      assert forall k :: 0 <= k < |presses[1..]| ==> presses[1..][k] == presses[k + 1];
      ButtonsOnlyIncrease(next, presses[1..], i);
    }
  }
}

=== FILE: store.dfy ===
/**
 * The application's two collections and the four mutations the screens are
 * given: add and delete a transaction, add a goal, and change a goal's saved
 * amount. Each mutation returns the new collection; the store never mutates
 * a record in place. Ids are supplied by the caller (the app derives them
 * from the clock) and are not assumed to be unique.
 */
module Store {
  import opened Types
  import Dashboard

  // ---------------------------------------------------------------------
  // Transactions

  /** `addTransaction`: the new record, carrying the given id, goes in front
      of the existing ones. */
  function AddTransaction(ts: seq<Transaction>, d: TransactionDraft, id: string): (r: seq<Transaction>)
    ensures |r| == |ts| + 1
    ensures r[0].id == id && Draft(r[0]) == d
    ensures r[1..] == ts
  {
    [WithId(d, id)] + ts
  }

  /** `deleteTransaction`: the records whose id differs from `id`. */
  function DeleteTransaction(ts: seq<Transaction>, id: string): (r: seq<Transaction>)
    ensures |r| <= |ts|
    ensures forall t :: t in r <==> t in ts && t.id != id
  {
    if |ts| == 0 then []
    else
      assert forall t :: t in ts ==> t == ts[0] || t in ts[1..];
      (if ts[0].id == id then [] else [ts[0]]) + DeleteTransaction(ts[1..], id)
  }

  /** Deleting distributes over concatenation. Together with the one-record
      case this pins deletion down as an order-preserving filter: the
      survivors keep their relative order. */
  lemma {:induction false} DeleteAppend(a: seq<Transaction>, b: seq<Transaction>, id: string)
    ensures DeleteTransaction(a + b, id) == DeleteTransaction(a, id) + DeleteTransaction(b, id)
  {
    if |a| == 0 {
      assert a + b == b;
    } else {
      var s := a + b;
      assert s[0] == a[0] && s[1..] == a[1..] + b;
      DeleteAppend(a[1..], b, id);
      var head: seq<Transaction> := if a[0].id == id then [] else [a[0]];
      var x, y := DeleteTransaction(a[1..], id), DeleteTransaction(b, id);
      calc {
        DeleteTransaction(s, id);
        head + DeleteTransaction(s[1..], id);
        head + (x + y);
        { assert head + (x + y) == (head + x) + y; }
        (head + x) + y;
        DeleteTransaction(a, id) + y;
      }
    }
  }

  /** Deleting keeps the length exactly when no record has the id, and then
      the list is unchanged. */
  lemma {:induction false} DeleteLength(ts: seq<Transaction>, id: string)
    ensures |DeleteTransaction(ts, id)| == |ts| <==> forall t :: t in ts ==> t.id != id
    ensures (forall t :: t in ts ==> t.id != id) ==> DeleteTransaction(ts, id) == ts
  {
    if |ts| > 0 {
      DeleteLength(ts[1..], id);
      assert ts == [ts[0]] + ts[1..];
      assert forall t :: t in ts ==> t == ts[0] || t in ts[1..];
    }
  }

  /** Deleting from a one-record list keeps it exactly when its id differs. */
  lemma DeleteSingle(t: Transaction, id: string)
    ensures DeleteTransaction([t], id) == if t.id == id then [] else [t]
  {
    assert [t][1..] == [];
  }

  /** Deleting twice is deleting once. */
  lemma DeleteIdempotent(ts: seq<Transaction>, id: string)
    ensures DeleteTransaction(DeleteTransaction(ts, id), id) == DeleteTransaction(ts, id)
  {
    DeleteLength(DeleteTransaction(ts, id), id);
  }

  /** Adding a record and then deleting its id removes the new record and
      every older record that happened to share the id. */
  lemma DeleteAfterAdd(ts: seq<Transaction>, d: TransactionDraft, id: string)
    ensures DeleteTransaction(AddTransaction(ts, d, id), id) == DeleteTransaction(ts, id)
  {
    var s := AddTransaction(ts, d, id);
    assert s[1..] == ts;
  }

  /** Adding a record moves the total of its type by its amount and leaves
      the other total alone. */
  lemma AddTransactionTotals(ts: seq<Transaction>, d: TransactionDraft, id: string, k: TransactionType)
    ensures Dashboard.CalculateTotal(AddTransaction(ts, d, id), k)
         == Dashboard.CalculateTotal(ts, k) + (if d.kind == k then d.amount else 0)
  {
    Dashboard.TotalCons(WithId(d, id), ts, k);
  }

  /** Recording a 150 Food expense in an empty store gives an expense total
      of 150 and a balance of -150. */
  lemma FirstExpense(id: string, now: int)
    ensures var ts := AddTransaction([], TransactionDraft(150, Expense, Food.Label(), "", now), id);
      Dashboard.CalculateTotal(ts, Expense) == 150 && Dashboard.Balance(ts) == -150
  {
    var d := TransactionDraft(150, Expense, Food.Label(), "", now);
    AddTransactionTotals([], d, id, Expense);
    AddTransactionTotals([], d, id, Income);
  }

  // ---------------------------------------------------------------------
  // Goals

  /** `addGoal`: the new goal, carrying the given id, goes after the
      existing ones; its saved amount is whatever the caller passed. */
  function AddGoal(goals: seq<Goal>, d: GoalDraft, id: string): (r: seq<Goal>)
    ensures |r| == |goals| + 1
    ensures r[..|goals|] == goals
    ensures r[|goals|].id == id && GoalFields(r[|goals|]) == d
  {
    goals + [GoalWithId(d, id)]
  }

  /** The saved amount after adding `delta`:
      `Math.min(target, Math.max(0, current + delta))`. */
  function ClampedAmount(current: int, target: int, delta: int): (r: int)
    ensures target >= 0 ==> 0 <= r <= target
    ensures 0 <= current + delta <= target ==> r == current + delta
    ensures current + delta < 0 <= target ==> r == 0
    ensures current + delta > target ==> r == target
    ensures target < 0 ==> r == target
  {
    Min(target, Max(0, current + delta))
  }

  /** The per-goal step of `updateGoalAmount`: a goal with the given id gets
      its clamped amount, every other field unchanged; any other goal is
      returned as it is. */
  function ContributeTo(g: Goal, id: string, delta: int): (r: Goal)
    ensures r.id == g.id
    ensures g.id != id ==> r == g
    ensures g.id == id ==>
      r == g.(currentAmount := ClampedAmount(g.currentAmount, g.targetAmount, delta))
  {
    if g.id == id
    then g.(currentAmount := ClampedAmount(g.currentAmount, g.targetAmount, delta))
    else g
  }

  /** `updateGoalAmount`: every goal carrying the id is updated, the list
      keeps its length and order, and all other goals are untouched. */
  function UpdateGoalAmount(goals: seq<Goal>, id: string, delta: int): (r: seq<Goal>)
    ensures |r| == |goals|
    ensures forall i :: 0 <= i < |goals| && goals[i].id != id ==> r[i] == goals[i]
    ensures forall i :: 0 <= i < |goals| && goals[i].id == id ==>
      && GoalFields(r[i]).(currentAmount := 0) == GoalFields(goals[i]).(currentAmount := 0)
      && r[i].id == id
      && r[i].currentAmount == ClampedAmount(goals[i].currentAmount, goals[i].targetAmount, delta)
  {
    seq(|goals|, i requires 0 <= i < |goals| => ContributeTo(goals[i], id, delta))
  }

  /** An id that no goal carries leaves the goals unchanged. */
  lemma UpdateUnknownGoal(goals: seq<Goal>, id: string, delta: int)
    requires forall g :: g in goals ==> g.id != id
    ensures UpdateGoalAmount(goals, id, delta) == goals
  {
  }

  /** Every goal's saved amount lies between zero and its target. */
  ghost predicate WithinTarget(goals: seq<Goal>) {
    forall g :: g in goals ==> 0 <= g.currentAmount <= g.targetAmount
  }

  /** A contribution of any sign keeps every goal within its target, provided
      no target is negative; it even brings an out-of-range goal back in. */
  lemma UpdateKeepsWithinTarget(goals: seq<Goal>, id: string, delta: int)
    requires forall g :: g in goals ==> g.targetAmount >= 0
    requires forall g :: g in goals && g.id != id ==> 0 <= g.currentAmount <= g.targetAmount
    ensures WithinTarget(UpdateGoalAmount(goals, id, delta))
  {
    var r := UpdateGoalAmount(goals, id, delta);
    forall g | g in r
      ensures 0 <= g.currentAmount <= g.targetAmount
    {
      var i :| 0 <= i < |r| && r[i] == g;
      assert goals[i] in goals;
    }
  }

  // ---------------------------------------------------------------------
  // Startup

  /** The seed transactions, dated relative to the start-up time `now`:
      four records with distinct ids and positive amounts, all dated before
      `now`. */
  function SeedTransactions(now: int): (r: seq<Transaction>)
    ensures |r| == 4
    ensures forall i :: 0 <= i < |r| ==> r[i].amount > 0 && r[i].date < now
    ensures forall i, j :: 0 <= i < j < |r| ==> r[i].id != r[j].id
  {
    [ Transaction("1", 150, Expense, Food.Label(), "Burger King", now - 86400000),
      Transaction("2", 2500, Income, Allowance.Label(), "Dad sent money", now - 172800000),
      Transaction("3", 450, Expense, Transport.Label(), "Uber to college", now - 200000000),
      Transaction("4", 1200, Expense, Shopping.Label(), "Myntra Sale", now - 5000000) ]
  }

  /** The seed goals, with deadlines relative to the start-up time `now`:
      two goals with distinct ids, positive targets, saved amounts within
      their targets, and deadlines after `now`. */
  function SeedGoals(now: int): (r: seq<Goal>)
    ensures |r| == 2 && r[0].id != r[1].id
    ensures forall i :: 0 <= i < |r| ==>
      0 <= r[i].currentAmount <= r[i].targetAmount && r[i].deadline > now
  {
    [ Goal("1", "Goa Trip", 15000, 4500, now + 5000000000, "\U{1F3D6}\U{FE0F}", "#f97316"),
      Goal("2", "Gaming PC", 80000, 12000, now + 9000000000, "\U{1F4BB}", "#06b6d4") ]
  }

  /** The total of a list given record by record, for concrete lists. */
  lemma TotalOfFour(t0: Transaction, t1: Transaction, t2: Transaction, t3: Transaction, k: TransactionType)
    ensures Dashboard.CalculateTotal([t0, t1, t2, t3], k)
         == (if t0.kind == k then t0.amount else 0) + (if t1.kind == k then t1.amount else 0)
          + (if t2.kind == k then t2.amount else 0) + (if t3.kind == k then t3.amount else 0)
  {
    var e: seq<Transaction> := [];
    assert [t3] == [t3] + e;
    assert [t2, t3] == [t2] + [t3];
    assert [t1, t2, t3] == [t1] + [t2, t3];
    assert [t0, t1, t2, t3] == [t0] + [t1, t2, t3];
    Dashboard.TotalCons(t3, e, k);
    Dashboard.TotalCons(t2, [t3], k);
    Dashboard.TotalCons(t1, [t2, t3], k);
    Dashboard.TotalCons(t0, [t1, t2, t3], k);
  }

  /** The seed: four transactions with 2500 of income and 1800 of expense,
      and two goals, each within its target. */
  lemma SeedFacts(now: int)
    ensures |SeedTransactions(now)| == 4 && |SeedGoals(now)| == 2
    ensures Dashboard.CalculateTotal(SeedTransactions(now), Income) == 2500
    ensures Dashboard.CalculateTotal(SeedTransactions(now), Expense) == 1800
    ensures Dashboard.Balance(SeedTransactions(now)) == 700
    ensures WithinTarget(SeedGoals(now))
  {
    var s := SeedTransactions(now);
    TotalOfFour(s[0], s[1], s[2], s[3], Income);
    TotalOfFour(s[0], s[1], s[2], s[3], Expense);
    assert s == [s[0], s[1], s[2], s[3]];
  }

  /** The collection the app starts with: the stored one when storage holds
      one, the seed otherwise. */
  function Startup<T>(stored: Option<seq<T>>, seed: seq<T>): (r: seq<T>)
    ensures stored.Some? ==> r == stored.value
    ensures stored.None? ==> r == seed
  {
    match stored
    case Some(saved) => saved
    case None => seed
  }

  // ---------------------------------------------------------------------
  // The application state as a whole

  datatype AppState = AppState(transactions: seq<Transaction>, goals: seq<Goal>)

  /** The mutations the screens can ask for. */
  datatype Action =
    | AddTx(draft: TransactionDraft, txId: string)
    | DeleteTx(deleteId: string)
    | AddGoalAction(goal: GoalDraft, goalId: string)
    | Contribute(targetId: string, delta: int)

  /** Applies one mutation; each touches only its own collection. */
  function Apply(s: AppState, a: Action): (r: AppState)
    ensures a.AddTx? || a.DeleteTx? ==> r.goals == s.goals
    ensures a.AddGoalAction? || a.Contribute? ==> r.transactions == s.transactions
  {
    match a
    case AddTx(d, id) => s.(transactions := AddTransaction(s.transactions, d, id))
    case DeleteTx(id) => s.(transactions := DeleteTransaction(s.transactions, id))
    case AddGoalAction(d, id) => s.(goals := AddGoal(s.goals, d, id))
    case Contribute(id, delta) => s.(goals := UpdateGoalAmount(s.goals, id, delta))
  }

  function ApplyAll(s: AppState, actions: seq<Action>): AppState
    decreases |actions|
  {
    if |actions| == 0 then s else ApplyAll(Apply(s, actions[0]), actions[1..])
  }

  /** A goal the goals screen could create: nothing saved yet and a target
      that is not negative. */
  ghost predicate FreshGoal(a: Action) {
    a.AddGoalAction? ==> a.goal.currentAmount == 0 && a.goal.targetAmount >= 0
  }

  /** Starting from goals that are within their targets, any sequence of
      mutations that only creates fresh goals keeps every goal within its
      target. */
  lemma {:induction false} ActionsKeepWithinTarget(s: AppState, actions: seq<Action>)
    requires WithinTarget(s.goals)
    requires forall i :: 0 <= i < |actions| ==> FreshGoal(actions[i])
    ensures WithinTarget(ApplyAll(s, actions).goals)
    decreases |actions|
  {
    if |actions| > 0 {
      var s' := Apply(s, actions[0]);
      assert FreshGoal(actions[0]);
      match actions[0] {
        case Contribute(id, delta) =>
          UpdateKeepsWithinTarget(s.goals, id, delta);
        case AddGoalAction(d, id) =>
          assert forall g :: g in s'.goals ==> g in s.goals || g == GoalWithId(d, id);
        case AddTx(_, _) =>
        case DeleteTx(_) =>
      }
      assert forall i :: 0 <= i < |actions[1..]| ==> actions[1..][i] == actions[i + 1];
      ActionsKeepWithinTarget(s', actions[1..]);
    }
  }
}

=== FILE: transactions.dfy ===
/**
 * The history screen: the entry form (its amount guard, the
 * "Other + custom label" category rule and the reset after saving) and the
 * newest-first ordering of the list it shows.
 */
module TransactionsScreen {
  import opened Types
  import Store

  // ---------------------------------------------------------------------
  // String trimming

  /** The characters JavaScript's `String.prototype.trim` removes: the
      WhiteSpace and LineTerminator code points of the ECMAScript grammar. */
  predicate IsJsWhitespace(c: char) {
    || c == '\t' || c == '\n' || c == '\U{000B}' || c == '\U{000C}' || c == '\r'
    || c == ' ' || c == '\U{00A0}' || c == '\U{1680}'
    || ('\U{2000}' <= c <= '\U{200A}')
    || c == '\U{2028}' || c == '\U{2029}' || c == '\U{202F}' || c == '\U{205F}'
    || c == '\U{3000}' || c == '\U{FEFF}'
  }

  /** All characters of `s` are whitespace. */
  predicate AllWhitespace(s: string) {
    forall i :: 0 <= i < |s| ==> IsJsWhitespace(s[i])
  }

  /** `s` without its leading whitespace. */
  function TrimStart(s: string): (r: string)
    ensures |r| <= |s| && r == s[|s| - |r|..]
    ensures AllWhitespace(s[..|s| - |r|])
    ensures |r| == 0 || !IsJsWhitespace(r[0])
  {
    if |s| > 0 && IsJsWhitespace(s[0]) then TrimStart(s[1..]) else s
  }

  /** `s` without its trailing whitespace. */
  function TrimEnd(s: string): (r: string)
    ensures |r| <= |s| && r == s[..|r|]
    ensures AllWhitespace(s[|r|..])
    ensures |r| == 0 || !IsJsWhitespace(r[|r| - 1])
  {
    if |s| > 0 && IsJsWhitespace(s[|s| - 1]) then TrimEnd(s[..|s| - 1]) else s
  }

  /** `s.trim()`: the input without its leading and trailing whitespace; the
      result neither starts nor ends with whitespace. */
  function Trim(s: string): (r: string)
    ensures |r| <= |s|
    ensures |r| == 0 || (!IsJsWhitespace(r[0]) && !IsJsWhitespace(r[|r| - 1]))
  {
    var a := TrimStart(s);
    assert |a| > 0 ==> TrimEnd(a)[0] == a[0];
    TrimEnd(a)
  }

  /** The trimmed string is the slice of the input between a whitespace-only
      prefix and a whitespace-only suffix. */
  lemma TrimIsSlice(s: string)
    ensures exists i, j :: 0 <= i <= j <= |s| && Trim(s) == s[i..j]
                        && AllWhitespace(s[..i]) && AllWhitespace(s[j..])
  {
    var a := TrimStart(s);
    var r := TrimEnd(a);
    var i := |s| - |a|;
    var j := i + |r|;
    assert s[j..] == a[|r|..];
    assert Trim(s) == s[i..j] && AllWhitespace(s[..i]) && AllWhitespace(s[j..]);
  }

  /** A string trims to nothing exactly when it is all whitespace. */
  lemma TrimEmpty(s: string)
    ensures Trim(s) == "" <==> AllWhitespace(s)
  {
    var a := TrimStart(s);
    if |a| == 0 {
      assert s[..|s|] == s;
    } else {
      assert s[|s| - |a|] == a[0];
    }
  }

  /** Trimming a trimmed string changes nothing. */
  lemma TrimIdempotent(s: string)
    ensures Trim(Trim(s)) == Trim(s)
  {
    var r := Trim(s);
    if |r| > 0 {
      assert TrimStart(r) == r;
      assert TrimEnd(r) == r;
    }
  }

  // ---------------------------------------------------------------------
  // The category rule

  /** The presets shown as buttons; "Other" has its own button. */
  const DisplayCategories: seq<Category> := [Food, Transport, Shopping, Entertainment, Bills]

  /** The category values the form can hold: a displayed preset or "Other". */
  predicate Selectable(c: string) {
    (exists p :: p in DisplayCategories && p.Label() == c) || c == Other.Label()
  }

  /** `finalCategory`: the trimmed custom text when "Other" is selected and
      the text is not blank; the selected category otherwise. */
  function FinalCategory(category: string, custom: string): (r: string)
    ensures category != "Other" ==> r == category
    ensures r != category ==> category == "Other" && r == Trim(custom)
    ensures category == "Other" && !AllWhitespace(custom) ==> r == Trim(custom)
    ensures category == "Other" && AllWhitespace(custom) ==> r == "Other"
  {
    TrimEmpty(custom);
    if category == "Other" && Trim(custom) != "" then Trim(custom) else category
  }

  /** Every preset label starts with a letter, not with whitespace. */
  lemma LabelNotBlank(p: Category)
    ensures |p.Label()| > 0 && !IsJsWhitespace(p.Label()[0])
  {
    CategoryLabels(p);
  }

  /** Every category the form can hold starts with a non-blank character. */
  lemma SelectableNotBlank(category: string)
    requires Selectable(category)
    ensures |category| > 0 && !IsJsWhitespace(category[0])
  {
    if category != Other.Label() {
      var p :| p in DisplayCategories && p.Label() == category;
      LabelNotBlank(p);
    } else {
      LabelNotBlank(Other);
    }
  }

  /** Whatever the custom text, a category the form can hold never resolves
      to the empty string, nor to text that starts with whitespace. */
  lemma FinalCategoryNonEmpty(category: string, custom: string)
    requires Selectable(category)
    ensures |FinalCategory(category, custom)| > 0
    ensures !IsJsWhitespace(FinalCategory(category, custom)[0])
  {
    SelectableNotBlank(category);
  }

  // ---------------------------------------------------------------------
  // The entry form

  datatype TxForm = TxForm(
    isAdding: bool,
    amount: string,
    note: string,
    kind: TransactionType,
    category: string,
    customCategory: string)

  /** The form as the screen first shows it. */
  const InitialForm: TxForm := TxForm(false, "", "", Expense, Food.Label(), "")

  /** What the user can do to the form before submitting it. */
  datatype FormEvent =
    | Open
    | Close
    | EnterAmount(amountText: string)
    | EnterNote(noteText: string)
    | ChooseType(chosenType: TransactionType)
    | ChoosePreset(preset: Category)
    | ChooseOther
    | EnterCustom(customText: string)

  /** Only the displayed presets have a button. */
  predicate ValidEvent(e: FormEvent) {
    e.ChoosePreset? ==> e.preset in DisplayCategories
  }

  function Step(f: TxForm, e: FormEvent): (r: TxForm)
    ensures ValidEvent(e) && Selectable(f.category) ==> Selectable(r.category)
  {
    match e
    case Open => f.(isAdding := true)
    case Close => f.(isAdding := false)
    case EnterAmount(s) => f.(amount := s)
    case EnterNote(s) => f.(note := s)
    case ChooseType(k) => f.(kind := k)
    case ChoosePreset(p) => f.(category := p.Label())
    case ChooseOther => f.(category := "Other")
    case EnterCustom(s) => f.(customCategory := s)
  }

  function Steps(f: TxForm, es: seq<FormEvent>): TxForm
    decreases |es|
  {
    if |es| == 0 then f else Steps(Step(f, es[0]), es[1..])
  }

  /** From the initial form, any sequence of button presses and typing
      leaves a selectable category in the form. */
  lemma {:induction false} StepsKeepSelectable(f: TxForm, es: seq<FormEvent>)
    requires Selectable(f.category)
    requires forall i :: 0 <= i < |es| ==> ValidEvent(es[i])
    ensures Selectable(Steps(f, es).category)
    decreases |es|
  {
    if |es| > 0 {
      assert ValidEvent(es[0]);
      assert forall i :: 0 <= i < |es[1..]| ==> es[1..][i] == es[i + 1];
      StepsKeepSelectable(Step(f, es[0]), es[1..]);
    }
  }

  /** The form starts on the Food preset, which is a displayed preset and
      therefore selectable. */
  lemma InitialFormSelectable()
    ensures InitialForm.category == Food.Label() && Food in DisplayCategories
    ensures Selectable(InitialForm.category)
  {
    assert Food in DisplayCategories;
  }

  datatype Submitted = Submitted(form: TxForm, transactions: seq<Transaction>)

  /** `handleSubmit`. `parsedAmount` is what `parseFloat` made of the amount
      text and `now` the submission time; both, like `id`, come from outside
      the model. An empty amount changes nothing; otherwise the record goes
      in front of the store and the form is cleared and closed, keeping only
      the chosen type. */
  function HandleSubmit(f: TxForm, ts: seq<Transaction>, parsedAmount: int, now: int, id: string): (r: Submitted)
    ensures f.amount == "" ==> r == Submitted(f, ts)
    ensures f.amount != "" ==>
      && |r.transactions| == |ts| + 1
      && r.transactions[1..] == ts
      && r.transactions[0] == Transaction(id, parsedAmount, f.kind,
                                          FinalCategory(f.category, f.customCategory), f.note, now)
      && r.form == TxForm(false, "", "", f.kind, "Food", "")
  {
    if f.amount == "" then Submitted(f, ts)
    else
      var d := TransactionDraft(parsedAmount, f.kind, FinalCategory(f.category, f.customCategory), f.note, now);
      Submitted(f.(amount := "", note := "", customCategory := "", category := Food.Label(), isAdding := false),
                Store.AddTransaction(ts, d, id))
  }

  /** A record saved through the form never has an empty category. */
  lemma SubmittedCategoryNonEmpty(f: TxForm, ts: seq<Transaction>, parsedAmount: int, now: int, id: string)
    requires Selectable(f.category) && f.amount != ""
    ensures |HandleSubmit(f, ts, parsedAmount, now, id).transactions[0].category| > 0
    ensures Selectable(HandleSubmit(f, ts, parsedAmount, now, id).form.category)
  {
    FinalCategoryNonEmpty(f.category, f.customCategory);
    assert Food in DisplayCategories;
  }

  // ---------------------------------------------------------------------
  // The displayed order

  /** Newest first: every record is at least as recent as the next one. */
  predicate NewestFirst(s: seq<Transaction>) {
    forall i :: 0 < i < |s| ==> s[i - 1].date >= s[i].date
  }

  /** In a newest-first list every record is at least as recent as every
      later one. */
  lemma {:induction false} NewestFirstAllPairs(s: seq<Transaction>, i: int, j: int)
    requires NewestFirst(s) && 0 <= i <= j < |s|
    ensures s[i].date >= s[j].date
    decreases j - i
  {
    if i < j {
      NewestFirstAllPairs(s, i + 1, j);
    }
  }

  /** Puts `t` into a newest-first list, ahead of every record that is not
      newer than it. */
  function InsertByDate(t: Transaction, s: seq<Transaction>): (r: seq<Transaction>)
    requires NewestFirst(s)
    ensures NewestFirst(r)
    ensures multiset(r) == multiset(s) + multiset{t}
    ensures r[0] == t || r[0] == s[0]
  {
    if |s| == 0 || s[0].date <= t.date then
      [t] + s
    else
      var rest := InsertByDate(t, s[1..]);
      assert s == [s[0]] + s[1..];
      assert |s| > 1 ==> s[1..][0] == s[1];
      [s[0]] + rest
  }

  /** `sortedTransactions`: a copy of the store sorted newest first; the
      store itself is left as it is. Records with equal dates keep their
      store order, as in JavaScript's stable sort. */
  function SortedTransactions(ts: seq<Transaction>): (r: seq<Transaction>)
    ensures NewestFirst(r)
    ensures multiset(r) == multiset(ts)
    ensures |r| == |ts|
  {
    if |ts| == 0 then []
    else
      assert ts == [ts[0]] + ts[1..];
      InsertByDate(ts[0], SortedTransactions(ts[1..]))
  }

  /** Any record shown above another in the displayed list is at least as
      recent. */
  lemma DisplayOrder(ts: seq<Transaction>, i: int, j: int)
    requires 0 <= i <= j < |ts|
    ensures SortedTransactions(ts)[i].date >= SortedTransactions(ts)[j].date
  {
    NewestFirstAllPairs(SortedTransactions(ts), i, j);
  }

  /** The displayed list shows exactly the records of the store. */
  lemma DisplaySameRecords(ts: seq<Transaction>, t: Transaction)
    ensures t in SortedTransactions(ts) <==> t in ts
  {
    var r := SortedTransactions(ts);
    assert t in r <==> t in multiset(r);
    assert t in ts <==> t in multiset(ts);
  }
}

=== FILE: types.dfy ===
/**
 * Records of the finance tracker: transactions, savings goals and the two
 * enumerations they use. Amounts are whole rupees (`int`), dates and
 * deadlines are millisecond timestamps (`int`), ids are strings.
 */
module Types {

  /** A value that may be missing, such as a collection the browser has
      not stored yet. */
  datatype Option<+T> = None | Some(value: T)

  /** A transaction is either income or expense; the string values are the
      ones the app compares against directly. */
  datatype TransactionType = Income | Expense {
    function Value(): string {
      match this
      case Income => "income"
      case Expense => "expense"
    }
  }

  /** Recognises the string form of a transaction type. */
  function TypeFromValue(s: string): (r: Option<TransactionType>)
    ensures r.Some? ==> r.value.Value() == s
    ensures s == "income" || s == "expense" <==> r.Some?
  {
    if s == "income" then Some(Income)
    else if s == "expense" then Some(Expense)
    else None
  }

  /** Distinct types have distinct string values, and each value is read
      back as the type that produced it. */
  lemma TypeValueRoundTrip(k: TransactionType, k': TransactionType)
    ensures TypeFromValue(k.Value()) == Some(k)
    ensures k.Value() == k'.Value() <==> k == k'
  {
    match k
    case Income =>
      assert k.Value() == "income";
    case Expense =>
      assert k.Value()[0] == 'e';
  }

  /** The preset categories. A transaction's category is a free string, so
      these are only the labels the entry form offers. */
  datatype Category =
    | Food | Transport | Shopping | Entertainment | Bills
    | Education | Salary | Allowance | Other
  {
    function Label(): string {
      match this
      case Food => "Food"
      case Transport => "Transport"
      case Shopping => "Shopping"
      case Entertainment => "Entertainment"
      case Bills => "Bills"
      case Education => "Education"
      case Salary => "Salary"
      case Allowance => "Allowance"
      case Other => "Other"
    }
  }

  /** Every preset label is non-empty and starts with a capital letter, and
      only the Other preset carries the literal "Other" that the entry form
      tests for. */
  lemma CategoryLabels(c: Category)
    ensures |c.Label()| > 0 && 'A' <= c.Label()[0] <= 'Z'
    ensures c.Label() == "Other" <==> c == Other
  {
    match c
    case Food => assert c.Label()[0] == 'F';
    case Transport => assert c.Label()[0] == 'T';
    case Shopping => assert c.Label()[0] == 'S';
    case Entertainment => assert c.Label()[0] == 'E';
    case Bills => assert c.Label()[0] == 'B';
    case Education => assert c.Label()[0] == 'E';
    case Salary => assert c.Label()[0] == 'S';
    case Allowance => assert c.Label()[0] == 'A';
    case Other => assert c.Label()[0] == 'O';
  }

  /** A stored transaction. The category is any string, not only a preset. */
  datatype Transaction = Transaction(
    id: string,
    amount: int,
    kind: TransactionType,
    category: string,
    note: string,
    date: int)

  /** A transaction before the store has given it an id. */
  datatype TransactionDraft = TransactionDraft(
    amount: int,
    kind: TransactionType,
    category: string,
    note: string,
    date: int)

  /** Attaches an id to a draft; every other field is copied. */
  function WithId(d: TransactionDraft, id: string): (t: Transaction)
    ensures t.id == id
    ensures Draft(t) == d
  {
    Transaction(id, d.amount, d.kind, d.category, d.note, d.date)
  }

  /** The fields of a transaction other than its id. */
  function Draft(t: Transaction): TransactionDraft {
    TransactionDraft(t.amount, t.kind, t.category, t.note, t.date)
  }

  /** A transaction is recovered from its id and its other fields. */
  lemma DraftWithIdRoundTrip(t: Transaction)
    ensures WithId(Draft(t), t.id) == t
  {
  }

  /** A savings goal. */
  datatype Goal = Goal(
    id: string,
    title: string,
    targetAmount: int,
    currentAmount: int,
    deadline: int,
    icon: string,
    color: string)

  /** A goal before the store has given it an id. */
  datatype GoalDraft = GoalDraft(
    title: string,
    targetAmount: int,
    currentAmount: int,
    deadline: int,
    icon: string,
    color: string)

  /** Attaches an id to a goal draft; every other field is copied. */
  function GoalWithId(d: GoalDraft, id: string): (g: Goal)
    ensures g.id == id
    ensures GoalFields(g) == d
  {
    Goal(id, d.title, d.targetAmount, d.currentAmount, d.deadline, d.icon, d.color)
  }

  /** The fields of a goal other than its id. */
  function GoalFields(g: Goal): GoalDraft {
    GoalDraft(g.title, g.targetAmount, g.currentAmount, g.deadline, g.icon, g.color)
  }

  function Min(a: int, b: int): int { if a <= b then a else b }

  function Max(a: int, b: int): int { if a >= b then a else b }
}
